=== FILE: README.md ===
# Quiz progression engine in Dafny

This project models the progression and reward engine of a quiz app, together with the quiz-session state machine that feeds it. A player answers multiple-choice questions and earns experience (xp). The xp decides the player's level through a fixed level table. A streak counts correct answers, and two badges unlock when the streak or the xp crosses a threshold. The source keeps all of this inside React components. Here it is written as pure functions over immutable records:

- `Types`: the records `Level`, `Badge`, `Question` and `User` (types.ts).
- `Constants`: the level table `LEVELS` and the badge list `BADGES` (constants.ts).
- `Leveling`: resolving a level from an xp total. This is the reverse scan at App.tsx:19 and App.tsx:67, with its two different fallbacks.
- `Rewards`: the badge unlock check of App.tsx:36-57. It returns the announced badge and the updated user as one value, where the source makes nested `setUser` calls.
- `Progress`: loading the user (App.tsx:15-30) and folding a finished quiz into it (App.tsx:64-81).
- `Quiz`: the session of components/QuizScreen.tsx. That covers loading, answering (the first answer is final), moving to the next question, the result formula and the live streak in the header.
- `Home`: the level-progress figures of components/HomeScreen.tsx.

The answer history is not part of the source's state. It appears in the proofs as a relation `Quiz.Tracks(session, picks)` between a session and the options chosen so far. The lemmas about answering and moving on show that every transition keeps this relation. That is how the model states properties such as "the header shows streak + 1 exactly when every answer so far was correct".

The numeric fields of `User` are `int` rather than `nat`. The stored record is JSON read back from storage, and nothing validates it. A negative stored xp really does reach the fallback branches of App.tsx:19 and App.tsx:67. For every non-negative xp those fallbacks are unreachable, because the first threshold is 0 (`Leveling.FallbacksAgree`).

`Math.round` is modelled as rounding `n / d` to the nearest integer, with halves rounded up (`Quiz.RoundHalfUp`). It is applied to the exact rational `score * 10 * 3 / 2` or `score * 10`. `Quiz.XpGained` proves that this rounding is always exact, so the xp gained is `15 * score` or `10 * score`.

Four behaviours of the source are easy to misread, and the model keeps each as the code has it:
- A session plays however many questions were fetched, and the fetch's error fallback returns just one. Yet a finished quiz adds 5 to `totalQuestions` whenever a subject is selected, which it always is during a quiz (App.tsx:75). `Progress.SixCorrectExceedsCount` shows the two drifting apart.
- When a new xp total reaches no threshold, the update after a quiz keeps the previous level (App.tsx:67). Loading falls back to the first level instead (App.tsx:19).
- A badge's condition is chosen by its literal id, `streak-master` or `knowledge-king` (App.tsx:40-44). Any other id never unlocks.
- The "next" handler never checks that an answer was recorded. The button is only slid off-screen until one is (components/QuizScreen.tsx:155).

## Model

| member | source | states |
|---|---|---|
| `Constants.BadgeList` | constants.ts:19-22 | There are two badges, `streak-master` (needs 10) then `knowledge-king` (needs 500), and their ids are distinct. |
| `Leveling.LevelsWellFormed` | constants.ts:11-17 | The level table starts at 0, its thresholds strictly increase, and they are 0, 100, 300, 600, 1000. |
| `Leveling.FindReached` | App.tsx:19 | The downward scan finds the last entry that the xp reaches, and every later entry lies above the xp. It finds none exactly when the xp is below every threshold. |
| `Leveling.Resolve` | App.tsx:19 | The reverse find is undefined exactly when no threshold is reached. Otherwise, in an ascending table, it yields the highest-threshold level with `minXp <= xp`. |
| `Leveling.ResolveWellFormed` | App.tsx:19 | In a well-formed table, a total resolves exactly when it is non-negative. An xp equal to a threshold resolves to that threshold's own level, so the lower bound is inclusive. |
| `Leveling.ResolveMonotone` | App.tsx:67 | If `x1 <= x2` and `x1` resolves, then `x2` resolves too, to a threshold at least as high. |
| `Leveling.HighestReachedUnique` | App.tsx:19 | In an ascending table, at most one level is the highest one an xp total reaches. |
| `Leveling.LevelOnLoad` | App.tsx:19 | On load, a non-negative xp gets its highest reached level. A negative xp falls back to the first level. |
| `Leveling.LevelOnUpdate` | App.tsx:67 | After a quiz, a non-negative xp gets its highest reached level. A negative xp keeps the previous level. |
| `Leveling.FallbacksAgree` | App.tsx:67 | For every non-negative xp the load rule and the update rule agree, so neither fallback is ever taken. |
| `Leveling.ResolveExamples` | App.tsx:19 | 99 xp is Beginner, 100 xp is Learner and 650 xp is Pro. With only the first three levels, 650 xp is Skilled. |
| `Rewards.ConditionMet` | App.tsx:39-44 | Only the two known ids can ever meet a condition. `streak-master` meets it exactly when the streak reaches the requirement, and `knowledge-king` exactly when the xp reaches it. |
| `Rewards.FirstEligible` | App.tsx:37-46 | Returns the index of a badge that is not yet unlocked and whose condition holds, with no such badge before it. It returns none exactly when no badge qualifies. |
| `Rewards.CheckUnlocks` | App.tsx:36-57 | Announces at most one badge: the first one in list order that is not unlocked and whose condition holds. It appends only that badge's id. With nothing eligible the user is unchanged. Only the two known ids can be announced. |
| `Rewards.CheckUnlocksLoop` | App.tsx:37-56 | The loop with its early `break` computes the same badge and user as the declarative rule. |
| `Rewards.UnknownBadgeNeverUnlocks` | App.tsx:39-44 | A badge whose id is neither known id is never announced. |
| `Rewards.NoRepeat` | App.tsx:37-53 | Re-running the check on its own result never announces the same badge again. |
| `Rewards.UnlockedOnlyGrows` | App.tsx:48-51 | The old unlocked ids are a prefix of the new list, which has at most one more id. |
| `Rewards.DeferredStaysEligible` | App.tsx:52-53 | An eligible badge that was not announced is still eligible on the next check, unless it shares its id with the announced badge. |
| `Rewards.EventuallyAllUnlocked` | App.tsx:37-53 | On a fixed user, repeating the check at least as many times as there are eligible badges leaves no badge eligible. Deferral inside the loop's rule is therefore fair. |
| `Rewards.StreakAndXpExample` | App.tsx:37-53 | With streak 12, xp 520 and nothing unlocked, the first check announces only `streak-master`. The next check announces `knowledge-king` and the third announces nothing. |
| `Progress.DefaultUser` | App.tsx:22-29 | With nothing stored, the user has 0 xp, the level derived from it, streak 0, zero counts and no badges. |
| `Progress.LoadUser` | App.tsx:15-30 | A stored record is kept except for its level, which is recomputed from its xp. The first level is used when no threshold is reached. With nothing stored, the default user is returned. |
| `Progress.LoadIgnoresStoredLevel` | App.tsx:19-20 | Two stored records that differ only in their level load to the same user. |
| `Progress.QuizEnd` | App.tsx:64-81 | A finished quiz adds the gained xp, replaces the streak, adds the score to the correct answers, and adds 5 questions only when a subject is selected. It re-resolves the level, keeping the old one when the xp reaches no threshold. Then exactly one unlock check runs on that updated user. It announces the first eligible badge in list order and appends its id, or nothing when no badge is eligible. |
| `Progress.DeferredBadgeAnnouncedNextQuizEnd` | App.tsx:64-81 | Suppose a badge is still eligible after one quiz end because another badge was announced instead. Then, if xp does not drop, the next quiz end announces that badge, whatever its score and streak. |
| `Progress.QuizEndPreservesDerivedLevel` | App.tsx:64-78 | With a non-negative gain, a level derived from xp stays derived from xp. Xp and level never go down, and the unlocked ids only grow. |
| `Progress.QuizEndKeepsAccuracyBound` | App.tsx:74-75 | If each quiz scores at most 5, correct answers never exceed questions counted. |
| `Progress.SixCorrectExceedsCount` | App.tsx:75 | A six-question quiz with all answers correct leaves 6 correct answers against 5 questions counted. |
| `Quiz.Load` | components/QuizScreen.tsx:83-87 | An empty question list is the failure screen, so no question is indexed. Any other list starts at question 0, unanswered, with an empty history. |
| `Quiz.DisplayedStreak` | components/QuizScreen.tsx:135 | The header shows the carried streak or one more than it, never anything else. Which of the two it shows is stated by `Quiz.DisplayedStreakMeaning`. |
| `Quiz.Answer` | components/QuizScreen.tsx:42-57 | The first answer to a question is final: once an answer is recorded, nothing changes. Otherwise the choice is recorded, `isCorrect` records whether the choice is the correct index, and the score rises by exactly 1 iff it is. |
| `Quiz.AnswerTracks` | components/QuizScreen.tsx:43-50 | An accepted answer extends the history by that choice. A repeated answer leaves the history as it was. The score stays the number of correct picks. |
| `Quiz.AllHitIff` | components/QuizScreen.tsx:49-50 | The number of correct picks equals the number of picks exactly when every pick is correct. |
| `Quiz.RoundHalfUp` | components/QuizScreen.tsx:69 | The result is the integer nearest to `n / d`, with halves rounded up. |
| `Quiz.XpGained` | components/QuizScreen.tsx:67-69 | The rounded xp is exactly `15 * score` when carried streak plus score reaches 10, and `10 * score` otherwise. It is never negative and is 0 for score 0. |
| `Quiz.Next` | components/QuizScreen.tsx:59-71 | Before the last question, "next" moves to the next index and clears the answer, keeping the index below the number of questions. On the last question it finishes with the score and the xp formula. The new streak is carried streak plus score if the last answer was correct, and 0 otherwise. |
| `Quiz.NextTracks` | components/QuizScreen.tsx:60-68 | Moving on keeps the history. A session finishes only once every question has exactly one pick. Its score is the number of correct picks, so it never exceeds the number of questions. |
| `Quiz.DisplayedStreakMeaning` | components/QuizScreen.tsx:135 | The header shows carried streak + 1 exactly when every question up to and including the current one was answered correctly. Otherwise it shows the carried streak. |
| `Quiz.RunSession` | components/QuizScreen.tsx:42-71 | Any complete run of answer/next over a non-empty list finishes after one answer per question. The result's score is the number of correct picks, with the matching xp and last-answer streak. |
| `Quiz.BonusExample` | components/QuizScreen.tsx:67-69 | With carried streak 8, score 5 and the last answer correct, the result is 75 xp and streak 13. |
| `Quiz.NoBonusExample` | components/QuizScreen.tsx:67-69 | With carried streak 0, score 3 and the last answer wrong, the result is 30 xp and streak 0. |
| `Home.FindAbove` | components/HomeScreen.tsx:14 | Returns the index of the first entry whose threshold is strictly above the xp, with every earlier entry at or below it. It returns none exactly when every threshold is reached. |
| `Home.NextLevel` | components/HomeScreen.tsx:14 | The next level is the first level whose threshold is strictly above the xp. When every threshold is reached, it is the last level. |
| `Home.Progress` | components/HomeScreen.tsx:14-43 | The next level is the first level above the xp, or the last. The xp within the level and the gap to the next level are both measured from the stored level's threshold. The bar maximum is that gap when it is positive, and 100 otherwise. |
| `Home.ProgressOfDerivedLevel` | components/HomeScreen.tsx:14-18 | With the level derived from xp, the xp within the level is never negative. Below the top threshold the next level is the entry right after the user's level, and the gap is positive, equals the bar maximum and exceeds the xp within the level. At the top, the next level is the current one, the gap is 0 and the bar maximum is 100. |
| `Home.NextLevelFollowsReached` | components/HomeScreen.tsx:14 | In an ascending table, the next level is the entry directly after the highest one reached. |

## Left out

- `Quiz.Next`: it requires an answer to be recorded. The source's handler does not check for one; the footer holding the button is just slid off-screen until an answer exists (components/QuizScreen.tsx:155). Finishing without an answer would reset the streak to 0, because `isCorrect` is `null` then.
- Quiz.RunSession: the question list is assumed fixed for the whole session. In the source, `play` is re-created whenever narration starts or stops (hooks/useAudioPlayer.ts:56-92). `loadQuestions` depends on `play` (components/QuizScreen.tsx:36), and the effect at components/QuizScreen.tsx:38-40 depends on `loadQuestions`. So a mid-session refetch can replace the list without resetting the index, the answer or the score. A shorter replacement leaves `questions[currentQuestionIndex]` undefined at components/QuizScreen.tsx:87.
- Question fetching (services/geminiService.ts) is a network call. The fetched list is a parameter of `Quiz.Load`. The "exactly 4 options" shape is not enforced, and neither is the number of questions.
- localStorage persistence and JSON parsing (App.tsx:16-18, App.tsx:32-34). Loading is a function of an optional stored record. A stored record whose numbers are not integers is not modelled.
- React scheduling. The model assumes that the append queued by `setUser` at App.tsx:48-51 lands on the user that the enclosing updater of App.tsx:65-79 returns. React does not promise this for an update queued from inside an updater. Under `React.StrictMode` in development, updaters are also invoked twice. Neither ordering nor double invocation is modelled.
- Progress.QuizEnd: the appended badge id is assumed to persist. In the source, the nested update may be applied before the outer updater's result and then overwritten by it. The badge would then be announced while its id is not stored, and it may be announced again at a later quiz end while it is still eligible.
- The stale `selectedSubject` closure in `handleQuizEnd` is reduced to a boolean parameter of `Progress.QuizEnd`.
- Leaving a quiz through the back button (App.tsx:91) only changes the screen and never the user. There is nothing to state about it beyond "the user is unchanged".
- Audio playback, mascot state, the chat assistant, the reward modal, confetti and image generation are presentation or external services.
- The progress-bar width percentages (components/ProgressBar.tsx, components/QuizScreen.tsx:129) are floating point and for display only.

=== FILE: constants.dfy ===
/** The fixed configuration of constants.ts: the level table and the badge list. */
module Constants {
  import opened Types

  const STREAK_MASTER: string := "streak-master"
  const KNOWLEDGE_KING: string := "knowledge-king"

  /** The level table, ascending by threshold. */
  const LEVELS: seq<Level> := [
    Level("Beginner", 0, "\U{1F530}"),
    Level("Learner", 100, "\U{1F9E0}"),
    Level("Skilled", 300, "\U{1F4AA}"),
    Level("Pro", 600, "\U{1F680}"),
    Level("Master", 1000, "\U{1F451}")
  ]

  /** The badges, in the order the unlock check visits them. */
  const BADGES: seq<Badge> := [
    Badge(STREAK_MASTER, "Streak Master", "10+ correct answers in a row",
          "A cute, vibrant cartoon icon of a fiery trophy for a \"Streak Master\" achievement, digital art style, on a clean white background.",
          10),
    Badge(KNOWLEDGE_KING, "Knowledge King", "500+ XP earned",
          "A cute, vibrant cartoon icon of a sparkling diamond brain for a \"Knowledge King\" achievement, digital art style, on a clean white background.",
          500)
  ]

  /** The two badges come in this order, with distinct ids and these requirements. */
  lemma BadgeList()
    ensures |BADGES| == 2
    ensures BADGES[0].id == STREAK_MASTER && BADGES[0].minRequirement == 10
    ensures BADGES[1].id == KNOWLEDGE_KING && BADGES[1].minRequirement == 500
    ensures forall i, j :: 0 <= i < j < |BADGES| ==> BADGES[i].id != BADGES[j].id
  {
  }
}

=== FILE: home.dfy ===
/**
 * The level-progress figures of HomeScreen.tsx: the next level, the
 * experience earned inside the current level, and the progress-bar maximum.
 */
module Home {
  import opened Wrappers
  import opened Types
  import opened Constants
  import opened Leveling

  /** Index of the first entry at or after `from` whose threshold lies above `xp`. */
  function FindAbove(t: seq<Level>, xp: int, from: nat): (r: Option<nat>)
    requires from <= |t|
    ensures r.Some? ==> from <= r.value < |t| && xp < t[r.value].minXp
    ensures r.Some? ==> forall j :: from <= j < r.value ==> t[j].minXp <= xp
    ensures r.None? <==> forall j :: from <= j < |t| ==> t[j].minXp <= xp
    decreases |t| - from
  {
    if from == |t| then None
    else if xp < t[from].minXp then Some(from)
    else FindAbove(t, xp, from + 1)
  }

  /** `t[k]` lies above `xp` and no entry before it does. */
  predicate IsFirstAbove(t: seq<Level>, xp: int, k: int) {
    && 0 <= k < |t|
    && xp < t[k].minXp
    && forall j :: 0 <= j < k ==> t[j].minXp <= xp
  }

  /**
   * The next level: the first entry whose threshold exceeds `xp`, or the
   * last entry when `xp` has reached every threshold.
   */
  function NextLevel(t: seq<Level>, xp: int): (l: Level)
    requires 0 < |t|
    ensures l in t
    ensures (forall m :: m in t ==> m.minXp <= xp) ==> l == t[|t| - 1]
    ensures (exists m :: m in t && xp < m.minXp) ==> exists k :: IsFirstAbove(t, xp, k) && l == t[k]
  {
    match FindAbove(t, xp, 0)
    case Some(i) =>
      assert IsFirstAbove(t, xp, i);
      t[i]
    case None => t[|t| - 1]
  }

  /** The figures behind the level progress bar. */
  datatype LevelProgress = LevelProgress(
    nextLevel: Level,
    xpInLevel: int,
    xpForNextLevel: int,
    barMax: int)

  /** The figures for `u`, measured from the level stored in the user record. */
  function Progress(u: User): (p: LevelProgress)
    ensures p.nextLevel == NextLevel(LEVELS, u.xp)
    ensures p.xpInLevel == u.xp - u.level.minXp
    ensures p.xpForNextLevel == p.nextLevel.minXp - u.level.minXp
    ensures p.xpForNextLevel > 0 ==> p.barMax == p.xpForNextLevel
    ensures p.xpForNextLevel <= 0 ==> p.barMax == 100
  {
    var next := NextLevel(LEVELS, u.xp);
    var xpForNext := next.minXp - u.level.minXp;
    LevelProgress(next, u.xp - u.level.minXp, xpForNext, if xpForNext > 0 then xpForNext else 100)
  }

  /**
   * With the level derived from experience: the experience inside the level
   * is never negative; below the top threshold the next level is the entry
   * right after the user's level, the bar maximum is the positive gap to it, and the bar
   * is not yet full; at the top the gap is 0 and the bar maximum is 100.
   */
  lemma ProgressOfDerivedLevel(u: User)
    requires LevelDerived(u)
    ensures var p := Progress(u);
      && 0 <= p.xpInLevel
      && (u.xp < LEVELS[|LEVELS| - 1].minXp ==>
            && (exists i :: 0 <= i < |LEVELS| - 1 && LEVELS[i] == u.level && p.nextLevel == LEVELS[i + 1])
            && u.level.minXp <= u.xp < p.nextLevel.minXp
            && 0 < p.xpForNextLevel == p.barMax
            && p.xpInLevel < p.xpForNextLevel)
      && (LEVELS[|LEVELS| - 1].minXp <= u.xp ==>
            p.nextLevel == u.level == LEVELS[|LEVELS| - 1] && p.xpForNextLevel == 0 && p.barMax == 100)
  {
    LevelsWellFormed();
    var p := Progress(u);
    var top := LEVELS[|LEVELS| - 1];
    if u.xp < top.minXp {
      assert top in LEVELS;
      var i :| 0 <= i < |LEVELS| && LEVELS[i] == u.level;
      assert i + 1 < |LEVELS| && u.xp < LEVELS[i + 1].minXp by {
        assert LEVELS[i + 1] in LEVELS;
      }
      NextLevelFollowsReached(LEVELS, u.xp, i);
    } else {
      assert forall m :: m in LEVELS ==> m.minXp <= u.xp;
      assert top in LEVELS;
    }
  }

  /** In a table, the next level is the entry directly after the highest one reached. */
  lemma {:induction false} NextLevelFollowsReached(t: seq<Level>, xp: int, i: nat)
    requires Ascending(t)
    requires i + 1 < |t| && t[i].minXp <= xp < t[i + 1].minXp
    ensures HighestReached(t, xp, t[i])
    ensures NextLevel(t, xp) == t[i + 1]
  {
    assert t[i + 1] in t;
    assert forall j :: 0 <= j <= i ==> t[j].minXp <= xp;
    assert forall j :: i < j < |t| ==> xp < t[j].minXp;
    var k := FindAbove(t, xp, 0);
    assert k.Some?;
    assert i < k.value;
    assert !(i + 1 < k.value);
  }
}

=== FILE: leveling.dfy ===
/**
 * Level resolution (App.tsx): the level of an experience total is the
 * highest-threshold entry of the table that the total reaches, found by
 * scanning the table from its last entry downward.
 */
module Leveling {
  import opened Wrappers
  import opened Types
  import opened Constants

  /** Thresholds strictly increase along the table. */
  predicate Ascending(t: seq<Level>) {
    forall i, j :: 0 <= i < j < |t| ==> t[i].minXp < t[j].minXp
  }

  /** A usable level table: non-empty, ascending, starting at 0 experience. */
  predicate WellFormedTable(t: seq<Level>) {
    |t| > 0 && t[0].minXp == 0 && Ascending(t)
  }

  /** `l` is an entry of `t` that `xp` reaches, and no entry `xp` reaches has a higher threshold. */
  predicate HighestReached(t: seq<Level>, xp: int, l: Level) {
    && l in t
    && l.minXp <= xp
    && forall m :: m in t && m.minXp <= xp ==> m.minXp <= l.minXp
  }

  /**
   * Index of the last entry of `t` whose threshold `xp` reaches, scanning
   * downward from the end of the table; None when `xp` is below every entry.
   */
  function FindReached(t: seq<Level>, xp: int): (r: Option<nat>)
    ensures r.Some? ==> r.value < |t| && t[r.value].minXp <= xp
    ensures r.Some? ==> forall j :: r.value < j < |t| ==> xp < t[j].minXp
    ensures r.None? <==> forall j :: 0 <= j < |t| ==> xp < t[j].minXp
    decreases |t|
  {
    if |t| == 0 then None
    else if t[|t| - 1].minXp <= xp then Some(|t| - 1)
    else FindReached(t[..|t| - 1], xp)
  }

  /** The reverse-find of App.tsx as a level: None plays the part of `undefined`. */
  function Resolve(t: seq<Level>, xp: int): (r: Option<Level>)
    ensures r.None? <==> forall m :: m in t ==> xp < m.minXp
    ensures r.Some? && Ascending(t) ==> HighestReached(t, xp, r.value)
  {
    match FindReached(t, xp)
    case None => None
    case Some(i) => Some(t[i])
  }

  /** In a well-formed table every non-negative total resolves; an exact threshold maps to its own entry. */
  lemma ResolveWellFormed(t: seq<Level>, xp: int)
    requires WellFormedTable(t)
    ensures 0 <= xp <==> Resolve(t, xp).Some?
    ensures forall i :: 0 <= i < |t| && t[i].minXp == xp ==> Resolve(t, xp) == Some(t[i])
  {
    if 0 <= xp {
      assert t[0] in t;
    }
    forall i | 0 <= i < |t| && t[i].minXp == xp
      ensures Resolve(t, xp) == Some(t[i])
    {
    }
  }

  /** Resolution is monotone: more experience never resolves to a lower threshold. */
  lemma {:induction false} ResolveMonotone(t: seq<Level>, x1: int, x2: int)
    requires Ascending(t)
    requires x1 <= x2
    requires Resolve(t, x1).Some?
    ensures Resolve(t, x2).Some?
    ensures Resolve(t, x1).value.minXp <= Resolve(t, x2).value.minXp
  {
    var l1 := Resolve(t, x1).value;
    assert l1 in t && l1.minXp <= x2;
    var l2 := Resolve(t, x2).value;
    assert HighestReached(t, x2, l2);
  }

  /** In an ascending table the highest reached entry is unique. */
  lemma HighestReachedUnique(t: seq<Level>, xp: int, l1: Level, l2: Level)
    requires Ascending(t)
    requires HighestReached(t, xp, l1) && HighestReached(t, xp, l2)
    ensures l1 == l2
  {
    var i :| 0 <= i < |t| && t[i] == l1;
    var j :| 0 <= j < |t| && t[j] == l2;
    assert l1.minXp == l2.minXp;
    if i < j || j < i {
      assert false;
    }
  }

  /** The configured table is well formed with thresholds 0, 100, 300, 600, 1000. */
  lemma LevelsWellFormed()
    ensures WellFormedTable(LEVELS)
    ensures |LEVELS| == 5
    ensures LEVELS[0].minXp == 0 && LEVELS[1].minXp == 100 && LEVELS[2].minXp == 300
    ensures LEVELS[3].minXp == 600 && LEVELS[4].minXp == 1000
  {
  }

  /**
   * Level given to a stored user on load (App.tsx:19): the resolved level,
   * or the first level when the stored total is below every threshold.
   */
  function LevelOnLoad(xp: int): (l: Level)
    ensures l in LEVELS
    ensures 0 <= xp ==> HighestReached(LEVELS, xp, l)
    ensures xp < 0 ==> l == LEVELS[0]
  {
    LevelsWellFormed();
    ResolveWellFormed(LEVELS, xp);
    Resolve(LEVELS, xp).GetOr(LEVELS[0])
  }

  /**
   * Level after a quiz (App.tsx:67): the resolved level, or the user's
   * previous level when the new total is below every threshold.
   */
  function LevelOnUpdate(xp: int, prev: Level): (l: Level)
    ensures 0 <= xp ==> HighestReached(LEVELS, xp, l)
    ensures xp < 0 ==> l == prev
  {
    LevelsWellFormed();
    ResolveWellFormed(LEVELS, xp);
    Resolve(LEVELS, xp).GetOr(prev)
  }

  /** The two fallbacks never matter for a non-negative total: both rules pick the same level. */
  lemma FallbacksAgree(xp: int, prev: Level)
    requires 0 <= xp
    ensures LevelOnLoad(xp) == LevelOnUpdate(xp, prev)
  {
    LevelsWellFormed();
    HighestReachedUnique(LEVELS, xp, LevelOnLoad(xp), LevelOnUpdate(xp, prev));
  }

  /** A user whose stored level is the one derived from a non-negative experience total. */
  predicate LevelDerived(u: User) {
    0 <= u.xp && u.level == LevelOnLoad(u.xp)
  }

  /** Worked cases: 99 is Beginner, 100 is Learner, 650 is Pro; in the first three levels 650 is Skilled. */
  lemma ResolveExamples()
    ensures LevelOnLoad(99).name == "Beginner"
    ensures LevelOnLoad(100).name == "Learner"
    ensures LevelOnLoad(650).name == "Pro"
    ensures Resolve(LEVELS[..3], 650) == Some(LEVELS[2]) && LEVELS[2].name == "Skilled"
  {
    LevelsWellFormed();
    ResolveWellFormed(LEVELS, 100);
    assert FindReached(LEVELS, 99) == Some(0);
    assert FindReached(LEVELS, 650) == Some(3);
    assert FindReached(LEVELS[..3], 650) == Some(2);
  }
}

=== FILE: progress.dfy ===
/**
 * The user record of App.tsx: how it is loaded, and how a finished quiz is
 * folded into it before the unlock check runs.
 */
module Progress {
  import opened Wrappers
  import opened Types
  import opened Constants
  import opened Leveling
  import opened Rewards

  /** Questions counted per finished quiz, whatever the session held. */
  const QUESTIONS_PER_QUIZ: int := 5

  /** The user when nothing is stored: no experience, first level, nothing unlocked. */
  function DefaultUser(): (u: User)
    ensures LevelDerived(u) && u.xp == 0
    ensures u.streak == 0 && u.correctAnswers == 0 && u.totalQuestions == 0 && u.unlockedBadges == []
  {
    User(0, LEVELS[0], 0, 0, 0, [])
  }

  /**
   * The user at start-up: the stored record with its level replaced by the
   * one resolved from its experience (the first level if it reaches none),
   * or the default user when nothing is stored.
   */
  function LoadUser(stored: Option<User>): (u: User)
    ensures stored.None? ==> u == DefaultUser()
    ensures stored.Some? ==> u.(level := stored.value.level) == stored.value
    ensures stored.Some? && 0 <= stored.value.xp ==> LevelDerived(u)
    ensures stored.Some? && stored.value.xp < 0 ==> u.level == LEVELS[0]
  {
    match stored
    case None => DefaultUser()
    case Some(s) => s.(level := LevelOnLoad(s.xp))
  }

  /** The stored level is never trusted: records that differ only in it load identically. */
  lemma LoadIgnoresStoredLevel(s1: User, s2: User)
    requires s1.(level := s2.level) == s2
    ensures LoadUser(Some(s1)) == LoadUser(Some(s2))
  {
  }

  /**
   * The end of a quiz: experience gained added, streak replaced, score
   * added to the correct answers and 5 to the questions answered (only with
   * a subject selected), the level re-resolved (kept when the total reaches
   * no threshold), then one unlock check on the result.
   */
  function QuizEnd(u: User, subjectSelected: bool, score: int, xpGained: int, finalStreak: int): (r: Unlock)
    ensures r.user.xp == u.xp + xpGained
    ensures r.user.streak == finalStreak
    ensures r.user.correctAnswers == u.correctAnswers + score
    ensures r.user.totalQuestions == u.totalQuestions + (if subjectSelected then QUESTIONS_PER_QUIZ else 0)
    ensures 0 <= r.user.xp ==> HighestReached(LEVELS, r.user.xp, r.user.level)
    ensures r.user.xp < 0 ==> r.user.level == u.level
    ensures r.badge.None? ==> r.user.unlockedBadges == u.unlockedBadges
    ensures r.badge.Some? ==> r.badge.value in BADGES && r.badge.value.id !in u.unlockedBadges
    ensures r.badge.Some? ==> r.user.unlockedBadges == u.unlockedBadges + [r.badge.value.id]
    ensures r == CheckUnlocks(BADGES, r.user.(unlockedBadges := u.unlockedBadges))
    ensures r.badge.None? <==>
      forall j :: 0 <= j < |BADGES| ==> !Eligible(BADGES[j], r.user.(unlockedBadges := u.unlockedBadges))
    ensures r.badge.Some? ==>
      exists k :: IsFirstEligible(BADGES, r.user.(unlockedBadges := u.unlockedBadges), k) && r.badge.value == BADGES[k]
  {
    var newXp := u.xp + xpGained;
    var updated := u.(
      xp := newXp,
      level := LevelOnUpdate(newXp, u.level),
      streak := finalStreak,
      correctAnswers := u.correctAnswers + score,
      totalQuestions := u.totalQuestions + (if subjectSelected then QUESTIONS_PER_QUIZ else 0));
    CheckUnlocks(BADGES, updated)
  }

  /**
   * A finished quiz with non-negative gain keeps the level derived from the
   * experience, never lowers experience or level, and only adds badges.
   */
  lemma QuizEndPreservesDerivedLevel(u: User, subjectSelected: bool, score: int, xpGained: int, finalStreak: int)
    requires LevelDerived(u)
    requires 0 <= xpGained
    ensures var r := QuizEnd(u, subjectSelected, score, xpGained, finalStreak);
      && LevelDerived(r.user)
      && u.xp <= r.user.xp
      && u.level.minXp <= r.user.level.minXp
      && u.unlockedBadges <= r.user.unlockedBadges
  {
    var r := QuizEnd(u, subjectSelected, score, xpGained, finalStreak);
    LevelsWellFormed();
    FallbacksAgree(r.user.xp, u.level);
    HighestReachedUnique(LEVELS, r.user.xp, r.user.level, LevelOnLoad(r.user.xp));
    ResolveMonotone(LEVELS, u.xp, r.user.xp);
  }

  /**
   * A badge that stays eligible after one quiz end, because another badge
   * was announced in its place, is the one announced at the next quiz end,
   * whatever that quiz's score and streak, as long as experience does not drop.
   */
  lemma DeferredBadgeAnnouncedNextQuizEnd(
    u: User, sel1: bool, score1: int, gain1: int, streak1: int,
    sel2: bool, score2: int, gain2: int, streak2: int, b: Badge)
    requires b in BADGES
    requires Eligible(b, QuizEnd(u, sel1, score1, gain1, streak1).user)
    requires 0 <= gain2
    ensures QuizEnd(QuizEnd(u, sel1, score1, gain1, streak1).user, sel2, score2, gain2, streak2).badge == Some(b)
  {
    BadgeList();
    var r1 := QuizEnd(u, sel1, score1, gain1, streak1);
    var before := r1.user.(unlockedBadges := u.unlockedBadges);
    assert Eligible(b, before);
    // streak-master comes first, so a deferred badge can only be knowledge-king
    if r1.badge.None? {
      assert false;
    }
    var k :| IsFirstEligible(BADGES, before, k) && r1.badge.value == BADGES[k];
    assert b == BADGES[1] && k == 0;
    var r2 := QuizEnd(r1.user, sel2, score2, gain2, streak2);
    var before2 := r2.user.(unlockedBadges := r1.user.unlockedBadges);
    assert !Eligible(BADGES[0], before2);
    assert Eligible(BADGES[1], before2);
    assert IsFirstEligible(BADGES, before2, 1);
  }

  /** Correct answers never exceed questions counted while each quiz scores at most 5. */
  lemma QuizEndKeepsAccuracyBound(u: User, score: int, xpGained: int, finalStreak: int)
    requires 0 <= u.correctAnswers <= u.totalQuestions
    requires 0 <= score <= QUESTIONS_PER_QUIZ
    ensures var r := QuizEnd(u, true, score, xpGained, finalStreak);
      0 <= r.user.correctAnswers <= r.user.totalQuestions
  {
  }

  /**
   * The fixed count of 5 is not tied to the session: a six-question quiz
   * answered perfectly leaves more correct answers than questions counted.
   */
  lemma SixCorrectExceedsCount()
    ensures var r := QuizEnd(DefaultUser(), true, 6, 60, 6);
      r.user.correctAnswers == 6 && r.user.totalQuestions == 5
  {
  }
}

=== FILE: quiz.dfy ===
/**
 * The quiz session of QuizScreen.tsx: load the questions, lock in the first
 * answer to each, advance, and compute the result on the last question.
 */
module Quiz {
  import opened Wrappers
  import opened Types

  /** State of one attempt: the current question, its recorded answer, and the running score. */
  datatype Session = Session(
    questions: seq<Question>,
    index: nat,
    selected: Option<int>,
    isCorrect: Option<bool>,
    score: nat)

  /**
   * What the screen shows: the spinner while the questions are on their way
   * (the screen starts here), the load failure, or a running session.
   */
  datatype Screen = Loading | LoadFailed | InQuiz(session: Session)

  /** What the session hands to the progress update when it finishes. */
  datatype QuizResult = QuizResult(score: nat, xpGained: int, newStreak: int)

  /** The outcome of pressing "next": the following question, or the finished result. */
  datatype Step = Advanced(session: Session) | Finished(result: QuizResult)

  /** A session pointing at an existing question, with answer and correctness recorded together. */
  predicate Valid(s: Session) {
    && s.index < |s.questions|
    && (s.selected.Some? <==> s.isCorrect.Some?)
  }

  /** The questions have arrived: an empty list is the failure screen, otherwise question 0, unanswered. */
  function Load(fetched: seq<Question>): (r: Screen)
    ensures r.LoadFailed? <==> |fetched| == 0
    ensures 0 < |fetched| ==> r.InQuiz?
    ensures r.InQuiz? ==> Valid(r.session) && Tracks(r.session, [])
    ensures r.InQuiz? ==> r.session.questions == fetched && r.session.index == 0
  {
    if |fetched| == 0 then LoadFailed
    else InQuiz(Session(fetched, 0, None, None, 0))
  }

  /** Whether the pick for question `i` is its correct option. */
  predicate Hit(qs: seq<Question>, picks: seq<int>, i: int)
    requires 0 <= i < |picks| <= |qs|
  {
    picks[i] == qs[i].correctAnswerIndex
  }

  /** Number of picks that hit the correct option. */
  function Hits(qs: seq<Question>, picks: seq<int>): (n: nat)
    requires |picks| <= |qs|
    ensures n <= |picks|
  {
    if |picks| == 0 then 0
    else Hits(qs, picks[..|picks| - 1]) + (if Hit(qs, picks, |picks| - 1) then 1 else 0)
  }

  /** Every pick hits exactly when the count of hits is the number of picks. */
  lemma {:induction false} AllHitIff(qs: seq<Question>, picks: seq<int>)
    requires |picks| <= |qs|
    ensures Hits(qs, picks) == |picks| <==> forall i :: 0 <= i < |picks| ==> Hit(qs, picks, i)
  {
    if |picks| > 0 {
      var init := picks[..|picks| - 1];
      AllHitIff(qs, init);
      assert forall i :: 0 <= i < |init| ==> (Hit(qs, init, i) <==> Hit(qs, picks, i));
    }
  }

  /**
   * `picks` are the options chosen so far, one per question answered: the
   * questions before the current one, plus the current one once answered.
   * The score counts the hits and `isCorrect` is the last pick's outcome.
   */
  predicate Tracks(s: Session, picks: seq<int>) {
    && |picks| == s.index + (if s.selected.Some? then 1 else 0)
    && |picks| <= |s.questions|
    && s.score == Hits(s.questions, picks)
    && (s.selected.Some? ==> |picks| > 0 && s.selected.value == picks[|picks| - 1])
    && (s.isCorrect.Some? ==> |picks| > 0 && s.isCorrect.value == Hit(s.questions, picks, |picks| - 1))
  }

  /**
   * Choosing option `choice`. The first answer to a question is final:
   * once one is recorded nothing changes. Otherwise the choice is recorded,
   * `isCorrect` records whether it is the correct index, and the score goes
   * up by one exactly when it is.
   */
  function Answer(s: Session, choice: int): (r: Session)
    requires Valid(s)
    ensures Valid(r)
    ensures s.selected.Some? ==> r == s
    ensures s.selected.None? ==> r.selected == Some(choice)
    ensures s.selected.None? ==> r.isCorrect == Some(choice == s.questions[s.index].correctAnswerIndex)
    ensures r.questions == s.questions && r.index == s.index
    ensures s.selected.None? ==>
      (r.score == s.score + 1 <==> choice == s.questions[s.index].correctAnswerIndex)
    ensures r.score == s.score || r.score == s.score + 1
  {
    if s.selected.Some? then s
    else
      var correct := choice == s.questions[s.index].correctAnswerIndex;
      s.(selected := Some(choice), isCorrect := Some(correct),
         score := if correct then s.score + 1 else s.score)
  }

  /** Answering keeps the history: an accepted choice is appended, a repeated one ignored. */
  lemma AnswerTracks(s: Session, picks: seq<int>, choice: int)
    requires Valid(s) && Tracks(s, picks)
    ensures s.selected.None? ==> Tracks(Answer(s, choice), picks + [choice])
    ensures s.selected.Some? ==> Tracks(Answer(s, choice), picks)
  {
    if s.selected.None? {
      var p := picks + [choice];
      assert p[..|p| - 1] == picks;
    }
  }

  /** Math.round of `n / d`: the nearest integer, halves rounded up. */
  function RoundHalfUp(n: int, d: int): (r: int)
    requires 0 < d
    ensures 2 * d * r - d <= 2 * n < 2 * d * r + d
  {
    (2 * n + d) / (2 * d)
  }

  /**
   * Experience for a finished quiz: `score * 10`, times 1.5 when the carried
   * streak plus the score reaches 10, rounded. The rounding is always exact.
   */
  function XpGained(streak: int, score: nat): (xp: nat)
    ensures streak + score >= 10 ==> xp == 15 * score
    ensures streak + score < 10 ==> xp == 10 * score
  {
    var bonus := streak + score >= 10;
    var r := if bonus then RoundHalfUp(score * 10 * 3, 2) else RoundHalfUp(score * 10, 1);
    assert bonus ==> 4 * r - 2 <= 60 * score < 4 * r + 2;
    r
  }

  /**
   * Pressing "next" after answering. Before the last question it moves on
   * and clears the answer. On the last it yields the score, the experience
   * gained, and the new streak: the carried streak plus the score when the
   * last question was answered correctly, otherwise 0.
   */
  function Next(s: Session, streak: int): (r: Step)
    requires Valid(s)
    requires s.selected.Some?
    ensures r.Advanced? <==> s.index + 1 < |s.questions|
    ensures r.Advanced? ==>
      && Valid(r.session)
      && r.session.index == s.index + 1
      && r.session.selected.None? && r.session.isCorrect.None?
      && r.session.questions == s.questions && r.session.score == s.score
    ensures r.Finished? ==> r.result.score == s.score
    ensures r.Finished? ==> r.result.xpGained == XpGained(streak, s.score)
    ensures r.Finished? && s.isCorrect == Some(true) ==> r.result.newStreak == streak + s.score
    ensures r.Finished? && s.isCorrect == Some(false) ==> r.result.newStreak == 0
  {
    if s.index < |s.questions| - 1 then
      Advanced(s.(index := s.index + 1, selected := None, isCorrect := None))
    else
      var newStreak := if s.isCorrect == Some(true) then streak + s.score else 0;
      Finished(QuizResult(s.score, XpGained(streak, s.score), newStreak))
  }

  /** Moving on keeps the history; finishing happens only once every question has its pick. */
  lemma NextTracks(s: Session, picks: seq<int>, streak: int)
    requires Valid(s) && s.selected.Some? && Tracks(s, picks)
    ensures Next(s, streak).Advanced? ==> Tracks(Next(s, streak).session, picks)
    ensures Next(s, streak).Finished? ==>
      && |picks| == |s.questions|
      && Next(s, streak).result.score == Hits(s.questions, picks) <= |s.questions|
      && (Next(s, streak).result.newStreak == (if Hit(s.questions, picks, |picks| - 1) then streak + s.score else 0))
  {
  }

  /** The live streak in the header: the carried streak, plus one on a perfect run so far. */
  function DisplayedStreak(s: Session, streak: int): (r: int)
    ensures r == streak || r == streak + 1
  {
    streak + (if s.score > s.index && s.isCorrect == Some(true) then 1 else 0)
  }

  /**
   * The header shows one more than the carried streak exactly when every
   * question up to and including the current one was answered correctly;
   * otherwise it shows the carried streak.
   */
  lemma {:induction false} DisplayedStreakMeaning(s: Session, picks: seq<int>, streak: int)
    requires Valid(s) && Tracks(s, picks)
    ensures DisplayedStreak(s, streak) == streak || DisplayedStreak(s, streak) == streak + 1
    ensures DisplayedStreak(s, streak) == streak + 1 <==>
      |picks| == s.index + 1 && forall i :: 0 <= i < |picks| ==> Hit(s.questions, picks, i)
  {
    AllHitIff(s.questions, picks);
    if Hits(s.questions, picks) == |picks| && |picks| == s.index + 1 {
      assert Hit(s.questions, picks, |picks| - 1);
    }
  }

  /**
   * The result a whole attempt should produce: the number of hits as the
   * score, its experience, and the streak decided by the last pick alone.
   */
  function ExpectedResult(qs: seq<Question>, picks: seq<int>, streak: int): QuizResult
    requires 0 < |picks| <= |qs|
  {
    var hits := Hits(qs, picks);
    QuizResult(hits, XpGained(streak, hits), if Hit(qs, picks, |picks| - 1) then streak + hits else 0)
  }

  /**
   * A whole attempt: load `qs`, then for each question choose `picks[k]`
   * and press "next". It always finishes after exactly one answer per
   * question, with the number of hits as its score.
   */
  method RunSession(qs: seq<Question>, picks: seq<int>, streak: int) returns (outcome: QuizResult)
    requires 0 < |qs|
    requires |picks| == |qs|
    ensures outcome == ExpectedResult(qs, picks, streak)
  {
    var s := Load(qs).session;
    var k := 0;
    while k < |qs| - 1
      invariant 0 <= k < |qs|
      invariant Valid(s) && s.questions == qs && s.index == k && s.selected.None?
      invariant Tracks(s, picks[..k])
    {
      AnswerTracks(s, picks[..k], picks[k]);
      assert picks[..k] + [picks[k]] == picks[..k + 1];
      s := Answer(s, picks[k]);
      NextTracks(s, picks[..k + 1], streak);
      s := Next(s, streak).session;
      k := k + 1;
    }
    AnswerTracks(s, picks[..k], picks[k]);
    assert picks[..k] + [picks[k]] == picks;
    s := Answer(s, picks[k]);
    NextTracks(s, picks, streak);
    outcome := Next(s, streak).result;
  }

  /** Carried streak 8, five correct, the last one too: 75 experience and a streak of 13. */
  lemma BonusExample(s: Session)
    requires Valid(s) && s.index == |s.questions| - 1 && s.score == 5 && s.isCorrect == Some(true)
    requires s.selected.Some?
    ensures Next(s, 8) == Finished(QuizResult(5, 75, 13))
  {
  }

  /** Carried streak 0, three correct but the last one wrong: 30 experience and the streak resets. */
  lemma NoBonusExample(s: Session)
    requires Valid(s) && s.index == |s.questions| - 1 && s.score == 3 && s.isCorrect == Some(false)
    requires s.selected.Some?
    ensures Next(s, 0) == Finished(QuizResult(3, 30, 0))
  {
  }
}

=== FILE: rewards.dfy ===
/**
 * The badge unlock check of App.tsx: visit the badges in list order, skip
 * those already unlocked, and unlock only the first whose condition holds.
 */
module Rewards {
  import opened Wrappers
  import opened Types
  import opened Constants

  /**
   * The condition of a badge, chosen by its id: `streak-master` tests the
   * streak, `knowledge-king` the experience total; any other id never holds.
   */
  predicate ConditionMet(b: Badge, u: User)
    ensures ConditionMet(b, u) ==> b.id == STREAK_MASTER || b.id == KNOWLEDGE_KING
    ensures ConditionMet(b, u) && b.id == STREAK_MASTER ==> u.streak >= b.minRequirement
    ensures ConditionMet(b, u) && b.id == KNOWLEDGE_KING ==> u.xp >= b.minRequirement
    ensures b.id == STREAK_MASTER && u.streak >= b.minRequirement ==> ConditionMet(b, u)
    ensures b.id == KNOWLEDGE_KING && u.xp >= b.minRequirement ==> ConditionMet(b, u)
  {
    if b.id == STREAK_MASTER then u.streak >= b.minRequirement
    else if b.id == KNOWLEDGE_KING then u.xp >= b.minRequirement
    else false
  }

  /** A badge not yet unlocked whose condition holds. */
  predicate Eligible(b: Badge, u: User) {
    b.id !in u.unlockedBadges && ConditionMet(b, u)
  }

  /** `badges[k]` is eligible and no badge before it is. */
  predicate IsFirstEligible(badges: seq<Badge>, u: User, k: int) {
    && 0 <= k < |badges|
    && Eligible(badges[k], u)
    && forall j :: 0 <= j < k ==> !Eligible(badges[j], u)
  }

  /** What one unlock check yields: the badge to announce, if any, and the user afterwards. */
  datatype Unlock = Unlock(badge: Option<Badge>, user: User)

  /** Index of the first eligible badge at or after `from`. */
  function FirstEligible(badges: seq<Badge>, u: User, from: nat): (r: Option<nat>)
    requires from <= |badges|
    ensures r.Some? ==> from <= r.value < |badges| && Eligible(badges[r.value], u)
    ensures r.Some? ==> forall j :: from <= j < r.value ==> !Eligible(badges[j], u)
    ensures r.None? <==> forall j :: from <= j < |badges| ==> !Eligible(badges[j], u)
    decreases |badges| - from
  {
    if from == |badges| then None
    else if Eligible(badges[from], u) then Some(from)
    else FirstEligible(badges, u, from + 1)
  }

  /**
   * One unlock check. The announced badge is the first eligible one in
   * list order, and only its id is appended. With no eligible badge the
   * user is returned unchanged.
   */
  function CheckUnlocks(badges: seq<Badge>, u: User): (r: Unlock)
    ensures r.badge.None? <==> forall j :: 0 <= j < |badges| ==> !Eligible(badges[j], u)
    ensures r.badge.None? ==> r.user == u
    ensures r.badge.Some? ==> exists k :: IsFirstEligible(badges, u, k) && r.badge.value == badges[k]
    ensures r.badge.Some? ==>
      r.user == u.(unlockedBadges := u.unlockedBadges + [r.badge.value.id])
    ensures r.badge.Some? ==> r.badge.value.id == STREAK_MASTER || r.badge.value.id == KNOWLEDGE_KING
  {
    match FirstEligible(badges, u, 0)
    case None => Unlock(None, u)
    case Some(k) =>
      assert IsFirstEligible(badges, u, k);
      Unlock(Some(badges[k]), u.(unlockedBadges := u.unlockedBadges + [badges[k].id]))
  }

  /**
   * The loop of App.tsx, with its early exit after the first unlock; it
   * agrees with the declarative rule above.
   */
  method CheckUnlocksLoop(badges: seq<Badge>, u: User) returns (found: Option<Badge>, updated: User)
    ensures Unlock(found, updated) == CheckUnlocks(badges, u)
  {
    found := None;
    updated := u;
    var i := 0;
    while i < |badges|
      invariant 0 <= i <= |badges|
      invariant FirstEligible(badges, u, 0) == FirstEligible(badges, u, i)
      invariant updated == u
    {
      var badge := badges[i];
      if badge.id !in u.unlockedBadges {
        var conditionMet := false;
        if badge.id == STREAK_MASTER {
          conditionMet := u.streak >= badge.minRequirement;
        } else if badge.id == KNOWLEDGE_KING {
          conditionMet := u.xp >= badge.minRequirement;
        }
        if conditionMet {
          found := Some(badge);
          updated := u.(unlockedBadges := u.unlockedBadges + [badge.id]);
          return;
        }
      }
      i := i + 1;
    }
  }

  /** A badge with an unknown id is never announced, whatever the user's numbers. */
  lemma UnknownBadgeNeverUnlocks(badges: seq<Badge>, u: User)
    ensures forall j :: 0 <= j < |badges| && badges[j].id != STREAK_MASTER && badges[j].id != KNOWLEDGE_KING ==>
              CheckUnlocks(badges, u).badge != Some(badges[j])
  {
  }

  /** Running the check again on its own result never announces the same badge a second time. */
  lemma NoRepeat(badges: seq<Badge>, u: User)
    ensures var r1 := CheckUnlocks(badges, u);
      r1.badge.Some? ==> CheckUnlocks(badges, r1.user).badge != Some(r1.badge.value)
  {
  }

  /** Unlocked ids are only ever appended: the old list is a prefix of the new. */
  lemma UnlockedOnlyGrows(badges: seq<Badge>, u: User)
    ensures var r := CheckUnlocks(badges, u);
      u.unlockedBadges <= r.user.unlockedBadges && |r.user.unlockedBadges| <= |u.unlockedBadges| + 1
  {
  }

  /**
   * An eligible badge that was not announced is deferred, not lost: it is
   * still eligible for the next check, provided its id differs from the
   * announced one.
   */
  lemma DeferredStaysEligible(badges: seq<Badge>, u: User, b: Badge)
    requires Eligible(b, u)
    requires CheckUnlocks(badges, u).badge.Some? ==> CheckUnlocks(badges, u).badge.value.id != b.id
    ensures Eligible(b, CheckUnlocks(badges, u).user)
  {
  }

  /** Number of badges in the list eligible for `u`. */
  function EligibleCount(badges: seq<Badge>, u: User): (n: nat)
    ensures n <= |badges|
    ensures n == 0 <==> forall j :: 0 <= j < |badges| ==> !Eligible(badges[j], u)
  {
    if |badges| == 0 then 0
    else EligibleCount(badges[1..], u) + (if Eligible(badges[0], u) then 1 else 0)
  }

  /** Fewer eligible badges when eligibility only shrinks; strictly fewer when one is lost. */
  lemma {:induction false} EligibleCountShrinks(badges: seq<Badge>, u1: User, u2: User, k: nat)
    requires forall b :: b in badges && Eligible(b, u2) ==> Eligible(b, u1)
    requires k < |badges| && Eligible(badges[k], u1) && !Eligible(badges[k], u2)
    ensures EligibleCount(badges, u2) < EligibleCount(badges, u1)
  {
    if k == 0 {
      EligibleCountNoGrowth(badges[1..], u1, u2);
    } else {
      assert forall b :: b in badges[1..] ==> b in badges;
      EligibleCountShrinks(badges[1..], u1, u2, k - 1);
    }
  }

  /** Eligibility that only shrinks never raises the count. */
  lemma {:induction false} EligibleCountNoGrowth(badges: seq<Badge>, u1: User, u2: User)
    requires forall b :: b in badges && Eligible(b, u2) ==> Eligible(b, u1)
    ensures EligibleCount(badges, u2) <= EligibleCount(badges, u1)
  {
    if |badges| > 0 {
      assert forall b :: b in badges[1..] ==> b in badges;
      EligibleCountNoGrowth(badges[1..], u1, u2);
    }
  }

  /** The user after at most `n` checks, stopping early once nothing is announced. */
  function UnlockRepeatedly(badges: seq<Badge>, u: User, n: nat): User
    decreases n
  {
    if n == 0 then u
    else
      var r := CheckUnlocks(badges, u);
      if r.badge.None? then u else UnlockRepeatedly(badges, r.user, n - 1)
  }

  /** An announcing check leaves strictly fewer eligible badges. */
  lemma AnnouncementShrinksEligible(badges: seq<Badge>, u: User)
    requires CheckUnlocks(badges, u).badge.Some?
    ensures EligibleCount(badges, CheckUnlocks(badges, u).user) < EligibleCount(badges, u)
  {
    var r := CheckUnlocks(badges, u);
    var k :| IsFirstEligible(badges, u, k) && r.badge.value == badges[k];
    assert forall x :: x in badges && Eligible(x, r.user) ==> Eligible(x, u);
    EligibleCountShrinks(badges, u, r.user, k);
  }

  /**
   * Deferral is fair on a fixed user: as many checks as there are eligible
   * badges leave no badge eligible, so every badge whose condition holds
   * ends up unlocked.
   */
  lemma {:induction false} EventuallyAllUnlocked(badges: seq<Badge>, u: User, n: nat)
    requires EligibleCount(badges, u) <= n
    ensures forall j :: 0 <= j < |badges| ==> !Eligible(badges[j], UnlockRepeatedly(badges, u, n))
    decreases n
  {
    if n > 0 {
      var r := CheckUnlocks(badges, u);
      if r.badge.Some? {
        AnnouncementShrinksEligible(badges, u);
        EventuallyAllUnlocked(badges, r.user, n - 1);
      }
    }
  }

  /**
   * Streak 12 and 520 experience with nothing unlocked: the first check
   * announces `streak-master` only, the next `knowledge-king`, the third nothing.
   */
  lemma StreakAndXpExample(u: User)
    requires u.streak == 12 && u.xp == 520 && u.unlockedBadges == []
    ensures CheckUnlocks(BADGES, u).badge == Some(BADGES[0])
    ensures CheckUnlocks(BADGES, CheckUnlocks(BADGES, u).user).badge == Some(BADGES[1])
    ensures var u2 := CheckUnlocks(BADGES, CheckUnlocks(BADGES, u).user).user;
      CheckUnlocks(BADGES, u2).badge.None? && u2.unlockedBadges == [STREAK_MASTER, KNOWLEDGE_KING]
  {
    var r1 := CheckUnlocks(BADGES, u);
    assert Eligible(BADGES[0], u);
    var r2 := CheckUnlocks(BADGES, r1.user);
    assert Eligible(BADGES[1], r1.user);
    assert r2.user.unlockedBadges == [STREAK_MASTER, KNOWLEDGE_KING];
  }
}

=== FILE: types.dfy ===
/** The records of types.ts that the progression engine works on. */
module Types {

  /** A tier of the level table, entered once experience reaches `minXp`. */
  datatype Level = Level(name: string, minXp: int, icon: string)

  /** An achievement; `minRequirement` is a streak or an experience total, depending on `id`. */
  datatype Badge = Badge(
    id: string,
    name: string,
    description: string,
    iconPrompt: string,
    minRequirement: int)

  /** One multiple-choice question as delivered by the question source. */
  datatype Question = Question(
    question: string,
    options: seq<string>,
    correctAnswerIndex: int,
    explanation: string)

  /**
   * The player's progress. The numbers are JavaScript numbers read back from
   * storage, so nothing forces them to be non-negative; `unlockedBadges` is
   * the array of badge ids in the order they were unlocked.
   */
  datatype User = User(
    xp: int,
    level: Level,
    streak: int,
    correctAnswers: int,
    totalQuestions: int,
    unlockedBadges: seq<string>)
}

=== FILE: wrappers.dfy ===
/** The optional value used wherever the source yields `undefined` or `null`. */
module Wrappers {

  datatype Option<+T> = None | Some(value: T) {

    /** The wrapped value, or `default` when there is none (the source's `||` and `??`). */
    function GetOr(default: T): (r: T)
      ensures Some? ==> r == value
      ensures None? ==> r == default
    {
      match this
      case Some(v) => v
      case None => default
    }
  }
}
